=== FILE: README.md ===
# Cave of Shadows — a Dafny model of the game logic

Cave of Shadows is a text adventure. A story map sends the player from
location to location. Each location offers an ordered list of options, and
each option names the next location. Progress is kept in a save file: a JSON
list of player records, one per named game.

This project models four parts of that logic:

- **The story map** (`story_map.dfy`, `game_world.dfy`). A story map is a
  finite map from location name to its options, together with the insertion
  order of its keys. The map the game ships with is included as data.
  Reachability is defined by walks along options.
- **The player and the save file** (`save_store.dfy`, `game.dfy`). These model
  one step of play, naming a new game, loading, deleting, and the save routine.
  Saving without an override list is an upsert by game name. Saving with one
  writes that list as it is. A missing save file, or one whose text is not
  valid JSON, reads as the empty list and is rewritten to it.
- **The two structural checks of the test suite** (`validators.dfy`). One check
  looks for options that lead to no location. The other is a worklist walk that
  finds the locations the first location cannot reach.
- **The console prompts** (`inputs.dfy`). Each prompt has an acceptance rule:
  numbered menu, yes/no and free text. The retry loop is modelled as "the first
  accepted answer of a sequence of answers".

I/O is abstracted as follows:

- The save file is a `StoreFile` value that is passed in and returned:
  `Absent`, `Unparsable` (text that is not valid JSON) or `Json(records)`.
- The clock reading is the parameter `now`.
- A menu answer enters a game operation as the zero-based index that the menu
  prompt returns. `Inputs.ParseMenuIndex` proves that this index is in range.

Behaviour of the code worth knowing:

- `new_game` overwrites the first record with an already saved name. Nothing
  checks for a duplicate name (`Game.NewGame`).
- Loading and deleting pick a save by its position in a menu.
- The dangling-target check stops at the first bad option it meets, in
  insertion order (`Validators.FindInvalidNext`).

Proved about the shipped map:

- No option dangles.
- Exactly three endings cannot be reached from "Cave Entrance":
  "Creature Attack - Tragic Ending 2", "Leave Cave - Neutral Ending 2" and
  "Leave Cave - Neutral Ending 3".
- So the repository's reachability check fails on its own map
  (`GameWorld.CheckShipped`).

## Model

| member | source | states |
|---|---|---|
| Game.NewPlayer | src/main.py:175-177 | A fresh player stands at the first key in insertion order. Its inventory is empty and it has no game name or save time yet. On any map that location is a key. |
| GameWorld.Shipped | src/main.py:8-146 | The shipped map has fourteen locations, and "Cave Entrance" is its first key. |
| GameWorld.ShippedFreshPlayer | src/main.py:175-177 | On the shipped map, a fresh player starts at "Cave Entrance" with an empty inventory. |
| Game.PlayGame | src/main.py:179-193 | A game name is needed only when the step actually moves. At an unknown location or an ending, it returns false and leaves the player and the file unchanged, with no save. Otherwise the chosen option's `next` becomes the location, the save time becomes `now`, and nothing else about the player changes. It returns true, and the file becomes the read records upserted with this player's record, so the first record under the game name loads back as exactly this player. |
| Game.PlayStaysOnMap | src/main.py:190-191 | On a map with no dangling targets, a step of play never moves the player to a name that is not a location. |
| Game.SaveGame | src/main.py:231-248 | With an override, it writes that list verbatim and leaves the player, including `last_updated`, untouched. Without one, it stamps the player with `now` and writes the read records upserted with the stamped player's record. The first record under the player's name then loads back as the player. Records under other names keep their positions and contents. The list grows by at most one. |
| SaveStore.FirstIndexOf | src/main.py:238-242 | Finds the position of the first record with the given name, with no match before it. Returns none exactly when no record has that name. |
| SaveStore.Upsert | src/main.py:236-245 | The length grows by at most one. If some record has the name, the length is unchanged. The first such record is replaced and every other position is unchanged. Otherwise the record is appended at the end. |
| SaveStore.UpsertThenFind | src/main.py:236-245 | After an upsert, the first record under the saved name is the saved record. |
| SaveStore.UpsertIdempotent | src/main.py:236-245 | Saving the same record twice gives the same list as saving it once. |
| SaveStore.UpsertKeepsNamesUnique | src/main.py:236-245 | An upsert into a list with distinct game names keeps the names distinct. |
| Game.NewGame | src/main.py:210-212 | The non-empty name becomes the game name and the game is saved. Afterwards the first record under that name is the player's new record, and records under other names keep their positions and contents. The file becomes the read records upserted with the new record: if the name was already saved, the first record under it is overwritten in place and every other record, including later duplicates of the name, is kept. If the name is new, the record is appended. |
| Game.NewGameThenLoad | src/main.py:210-225 | Start a fresh player, name the game, then choose that name's record in the load menu. The result is a player at the first location, with an empty inventory, that name and the save time. |
| Game.LoadGame | src/main.py:214-229 | It returns false exactly when the file holds no saves, and then the player is unchanged. Otherwise it copies the chosen record's location, inventory, name and save time onto the player. The file is only healed by the read. |
| Game.AsRecord | src/main.py:236-245 | The record saved for a named, stamped player holds its location, inventory, name and save time, so copying it back gives the same player. |
| Game.Restore | src/main.py:222-225 | Loading a record copies its location, inventory, name and save time onto the player. The loaded player always has a name and a save time, so it can be saved again. |
| Game.RecordRoundTrip | src/main.py:219-225 | Copying a record onto a player and building that player's record, before any save re-stamps it, gives back the same record. Building the record of a named, stamped player and copying it back gives the same player. Saving itself re-stamps the save time, so a save followed by a load gives the player with the new time. |
| Game.DeleteGame | src/main.py:195-208 | Choosing the trailing "Go back" entry, or having no saves, writes nothing beyond the read. An intact file stays unchanged. Any other choice `k` removes exactly record `k`. The rest keep their relative order and the list shrinks by one. |
| SaveStore.RemoveAt | src/main.py:204 | Removes record `k`: shorter by one, earlier records in place, later ones shifted down by one, the multiset less exactly that record. |
| SaveStore.RemoveAtForgetsName | src/main.py:204-205 | If game names are distinct, deleting a record leaves no record under its name, and the names stay distinct. |
| Game.DeleteThenNameGone | src/main.py:199-205 | If game names are distinct, deleting a save means no record carries its name any more. |
| Game.SaveKeepsNamesUnique | src/main.py:231-245 | Saving and naming a game keep the game names in the file distinct if they were distinct before. |
| Game.PlayKeepsNamesUnique | src/main.py:190-192 | A step of play keeps the game names in the file distinct if they were distinct before. |
| Game.LoadDeleteKeepNamesUnique | src/main.py:195-229 | Loading and deleting keep the game names in the file distinct if they were distinct before. |
| SaveStore.GetSaveGameContents | src/main.py:156-167 | After a read, the file holds exactly the records returned. An intact file is left as it is. A missing file, or one whose text is not valid JSON, reads as the empty list and is rewritten to it. |
| SaveStore.ReadIsStable | src/main.py:156-167 | Reading a second time returns the same records and heals nothing more. |
| SaveStore.WriteBackRead | src/main.py:156-167 | Writing back what was read and reading again gives the same result. |
| Validators.FindInvalidNext | src/test_main.py:3-6 | Reports nothing exactly when every `next` of every option of every location is a key. Otherwise it reports the first dangling option in insertion order: its location and its missing target. Every option of earlier locations, and every earlier option of that location, leads to a key. |
| Validators.UnusedLocations | src/test_main.py:8-23 | Starting from the first key, whatever order the pending set pops in, returns exactly the keys not reachable from it. So the final check passes exactly when every key is reachable. Only names reachable from the first key are ever popped, so it requires exactly that no option of a reachable location dangles; options of unreachable locations may. |
| StoryMap.ReachableStep | src/test_main.py:20-21 | A target of an option of a reachable location is reachable. |
| StoryMap.ClosedContainsReachable | src/test_main.py:14-21 | A set that holds the start and is closed under options holds every location reachable from the start. |
| GameWorld.ShippedNoDangling | src/main.py:8-146 | The shipped map passes the dangling-target check. |
| GameWorld.ShippedUnreachable | src/main.py:8-146 | On the shipped map the first key is "Cave Entrance". The keys unreachable from it are exactly the three orphaned endings. |
| GameWorld.CheckShipped | src/test_main.py:3-23 | Run on the shipped map, the dangling check finds nothing and the walk returns exactly the three orphaned endings. |
| Inputs.ParseMenuIndex | src/inputs.py:9-19 | An accepted menu answer is all digits with a value `v` in `1..n`. The result is `v - 1`, always below `n`. |
| Inputs.MenuAnswerForm | src/inputs.py:10-19 | An answer is accepted with index `r` exactly when `r < n` and the answer is the decimal numeral of `r + 1`, possibly after leading zeros. So "01" chooses the same entry as "1". Python's limit on the length of digit strings that `int()` converts is not modelled (see "Left out"). |
| Inputs.EveryEntrySelectable | src/inputs.py:13-19 | Typing the one-based number of any entry selects it. |
| Inputs.NonDigitRejected | src/inputs.py:10-12 | An answer containing any non-digit character, such as a sign, a space or a letter, is rejected. |
| Inputs.EmptyMenuAcceptsNothing | src/inputs.py:15-17 | A menu with no entries accepts no answer, so its prompt never returns. |
| Inputs.Value | src/inputs.py:13 | The value of a digit string of length `m` is below `10^m`, and at least `10^(m-1)` when the first digit is not zero. |
| Inputs.Lower | src/inputs.py:25 | Lower-casing keeps the length and maps each character on its own. No ASCII capital remains, and every other character is kept as it is. |
| Inputs.ValueOfDecimal | src/inputs.py:13 | Converting the decimal numeral of `k` back to a number gives `k`. |
| Inputs.DecimalOfValue | src/inputs.py:13 | A digit string without a leading zero has a positive value and is that value's numeral. |
| Inputs.ValueIgnoresLeadingZeros | src/inputs.py:13 | Leading zeros do not change the value. |
| Inputs.ParseYesNo | src/inputs.py:25-30 | The yes/no prompt accepts exactly the case variants of "yes", "y", "no" and "n". It reads "yes" and "y" as true and "no" and "n" as false, and rejects everything else. |
| Inputs.ParseText | src/inputs.py:36-41 | The free-text prompt rejects only the empty string. It returns any other answer unchanged. |
| Inputs.AskUntilAccepted | src/inputs.py:5-19 | The retry loop returns the first accepted answer's result and its position, with every earlier answer rejected. If none is accepted, it reports that the answers ran out. |
| Inputs.AskMenuIndex | src/inputs.py:1-19 | The menu prompt returns the index chosen by the first accepted answer, always below the number of entries. Every earlier answer was rejected. It returns nothing exactly when every answer is rejected, and always so with no entries. |
| Inputs.AskYesNo | src/inputs.py:21-30 | The yes/no prompt returns true only for a case variant of "yes" or "y", and false only for one of "no" or "n". Every earlier answer was rejected. It returns nothing exactly when every answer is rejected. |
| Inputs.AskText | src/inputs.py:32-41 | The free-text prompt returns the first non-empty answer unchanged. It returns nothing exactly when every answer is empty. |

## Left out

- File and JSON I/O, `pathlib` and the `__main__` menu loops: the save file is a value that is passed in and returned.
- Read errors other than a missing file or invalid JSON text: the source catches only `FileNotFoundError` and `json.JSONDecodeError`, so a `UnicodeDecodeError`, a permission error or a directory in the file's place propagates and ends the program. `StoreFile` has no state for them.
- Parsable JSON that is not a list of well-formed records: `Json(records)` always stands for such a list. What the source does with other JSON varies. A falsy value (`null`, `{}`, `0`, `false`, `""`) makes loading and deleting print "No saved games found" and carry on (src/main.py:198, 217, 228), while saving into it raises `TypeError` or `AttributeError` (src/main.py:238, 245). A non-empty value that is not a list raises `TypeError` or `AttributeError` in the menu label builders (src/main.py:199, 218). A list entry without one of the four keys raises `KeyError`.
- `datetime.now().timestamp()` and the date text of the menu labels: the save time is the parameter `now`. Labels are display-only.
- Printing, location descriptions, the logo and the `items` field: no step reads them, and no step of play changes the inventory (only loading replaces it).
- Game.SaveGame: requires the player to have a game name when there is no override. The source compares names through `self.game_name`, which raises when the attribute is unset. Every path into play names the game first, so saving an unnamed player (the store-is-empty corner where the loop body never runs) is not modelled.
- Game.PlayGame: takes the menu's answer as an index, assumed to be in range for the location's options. `Inputs.ParseMenuIndex` is what guarantees that range.
- Game.LoadGame, Game.DeleteGame: take the menu's answer as an index, assumed to be in range for the listed saves (plus "Go back" when deleting). `Inputs.AskMenuIndex` is what guarantees that range.
- Inputs.AskUntilAccepted: works on a finite sequence of answers. A `None` result with `at == |answers|` stands for the source's next `input()` call raising `EOFError` once standard input is exhausted. That exception is not modelled as such.
- Inputs.ParseMenuIndex: treats every all-digit answer as a number, however long. From CPython 3.10.7 on, `int()` by default refuses a digit string longer than 4300 characters, leading zeros included. An answer such as 4300 zeros followed by "1" passes `isdigit()` and then raises an uncaught `ValueError`, which ends the program. The model accepts it as the first entry. The limit depends on the interpreter version and its configuration, so it is left out.
- Inputs.MenuAnswerForm: for the same reason, its "any number of leading zeros" holds only for answers within the interpreter's digit limit.
- Unicode behaviour of `str.isdigit` and `str.lower`: only ASCII digits and ASCII letters are modelled.
- The import-name mismatch between the test module and the game module: the checks are modelled over any map.
- `amgosgus.py`: an older snapshot that does not run on its own data. It is not part of this model.
- Game.NewPlayer, Validators.UnusedLocations: require at least one location, so the empty story map is not modelled. On an empty map the source's `list(game_word.keys())[0]` raises `IndexError` (src/main.py:176) and the test's `next(iter(GAME_WORLD.keys()))` raises `StopIteration` (src/test_main.py:12). Neither error path is modelled; the shipped map has fourteen locations.
- Duplicate keys in a dict literal: `World.Valid` states what any Python dict satisfies, namely each key once, in insertion order.

=== FILE: game.dfy ===
/**
 * The player object and its operations: starting a player, one step of
 * play, naming a new game, loading and deleting saves, and saving. The
 * save file is passed in and returned; the clock reading is a parameter;
 * each menu answer enters as the zero-based index the menu prompt returned.
 */
module Game {
  import opened Wrappers
  import opened StoryMap
  import opened SaveStore

  /**
   * A player object. A fresh player has no game name and no save time
   * yet: those attributes are only set by naming, loading or saving.
   */
  datatype Player = Player(
    currentLocation: string,
    inventory: seq<string>,
    gameName: Option<string>,
    lastUpdated: Option<Timestamp>)

  /** A fresh player, standing at the first location of the map with nothing in hand. */
  function NewPlayer(w: World): (p: Player)
    requires |w.order| > 0
    ensures p.currentLocation == w.Start() && p.inventory == []
    ensures p.gameName.None? && p.lastUpdated.None?
    ensures w.Valid() ==> p.currentLocation in w.locs
  {
    assert w.order[0] in w.order;
    Player(w.order[0], [], None, None)
  }

  /** The record written for a player: its four attributes. */
  function AsRecord(p: Player): (r: Record)
    requires p.gameName.Some? && p.lastUpdated.Some?
    ensures Restore(r) == p
  {
    Record(p.currentLocation, p.inventory, p.gameName.value, p.lastUpdated.value)
  }

  /**
   * The player after a record's four attributes are copied onto it: it
   * always has a name and a save time, so it can be saved again.
   */
  function Restore(r: Record): (p: Player)
    ensures p.gameName.Some? && p.lastUpdated.Some?
    ensures p.currentLocation == r.currentLocation && p.inventory == r.inventory
    ensures p.gameName.value == r.gameName && p.lastUpdated.value == r.lastUpdated
  {
    Player(r.currentLocation, r.inventory, Some(r.gameName), Some(r.lastUpdated))
  }

  /**
   * Record and player are two views of the same four attributes: the record
   * built from a loaded player, before any save re-stamps it, is the loaded
   * record, and loading the record of a named, stamped player gives that
   * player back.
   */
  lemma RecordRoundTrip(r: Record, p: Player)
    ensures AsRecord(Restore(r)) == r
    ensures p.gameName.Some? && p.lastUpdated.Some? ==> Restore(AsRecord(p)) == p
  {
  }

  /** The player and the save file after an operation. */
  datatype Saved = Saved(player: Player, file: StoreFile)

  /** The records a save file holds once it has been read. */
  function RecordsOf(file: StoreFile): (records: seq<Record>) {
    GetSaveGameContents(file).records
  }

  /**
   * Saving. With an override list the file is overwritten with exactly
   * that list and the player is left as it is. Without one the player's
   * save time is set to `now`, the file is read, the player's record is
   * upserted by game name, and the result is written back.
   */
  function SaveGame(p: Player, file: StoreFile, now: Timestamp, override: Option<seq<Record>>): (s: Saved)
    requires override.Some? || p.gameName.Some?
    ensures s.file.Json?
    ensures override.Some? ==> s.player == p && s.file.records == override.value
    ensures override.None? ==> s.player == p.(lastUpdated := Some(now))
    ensures override.None? ==> s.file.records == Upsert(RecordsOf(file), AsRecord(s.player))
    ensures override.None? ==>
      var i := FirstIndexOf(s.file.records, p.gameName.value);
      i.Some? && Restore(s.file.records[i.value]) == s.player
    ensures override.None? ==> |RecordsOf(file)| <= |s.file.records| <= |RecordsOf(file)| + 1
    ensures override.None? ==> forall j :: 0 <= j < |RecordsOf(file)| && RecordsOf(file)[j].gameName != p.gameName.value ==> s.file.records[j] == RecordsOf(file)[j]
  {
    match override
    case Some(records) => Saved(p, Json(records))
    case None =>
      var player := p.(lastUpdated := Some(now));
      var records := Upsert(RecordsOf(file), AsRecord(player));
      UpsertThenFind(RecordsOf(file), AsRecord(player));
      Saved(player, Json(records))
  }

  /** Play can move on from `k`: it is a location and not an ending. */
  predicate CanMove(w: World, k: string) {
    k in w.locs && !w.locs[k].IsTerminal()
  }

  /** The menu answer `choice` picks one of the options at `k`, whenever `k` offers any. */
  predicate ChoiceFits(w: World, k: string, choice: nat) {
    CanMove(w, k) ==> choice < |w.locs[k].options|
  }

  /** The outcome of one step: whether play goes on, the player and the file. */
  datatype Step = Step(more: bool, player: Player, file: StoreFile)

  /**
   * One step of play. An unknown location or an ending stops the game
   * with nothing changed. Otherwise the chosen option's target becomes
   * the current location and the game is saved, which needs the game's
   * name.
   */
  function PlayGame(w: World, p: Player, file: StoreFile, choice: nat, now: Timestamp): (o: Step)
    requires CanMove(w, p.currentLocation) ==> p.gameName.Some?
    requires ChoiceFits(w, p.currentLocation, choice)
    ensures !o.more <==> p.currentLocation !in w.locs || w.locs[p.currentLocation].IsTerminal()
    ensures !o.more ==> o.player == p && o.file == file
    ensures o.more ==>
      && o.player.currentLocation == w.locs[p.currentLocation].options[choice].next
      && o.player.inventory == p.inventory
      && o.player.gameName == p.gameName
      && o.player.lastUpdated == Some(now)
    ensures o.more ==> o.file == Json(Upsert(RecordsOf(file), AsRecord(o.player)))
    ensures o.more ==> o.file.Json? && exists i ::
      && 0 <= i < |o.file.records|
      && FirstIndexOf(o.file.records, p.gameName.value) == Some(i)
      && Restore(o.file.records[i]) == o.player
  {
    if p.currentLocation !in w.locs then
      Step(false, p, file)
    else
      var location := w.locs[p.currentLocation];
      if location.IsTerminal() then
        Step(false, p, file)
      else
        var moved := p.(currentLocation := location.options[choice].next);
        var s := SaveGame(moved, file, now, None);
        Step(true, s.player, s.file)
  }

  /** On a map without dangling targets, play never moves the player off the map. */
  lemma PlayStaysOnMap(w: World, p: Player, file: StoreFile, choice: nat, now: Timestamp)
    requires CanMove(w, p.currentLocation) ==> p.gameName.Some?
    requires ChoiceFits(w, p.currentLocation, choice)
    requires NoDangling(w)
    requires p.currentLocation in w.locs
    ensures PlayGame(w, p, file, choice, now).player.currentLocation in w.locs
  {
    var o := PlayGame(w, p, file, choice, now);
    if o.more {
      var c := w.locs[p.currentLocation].options[choice];
      assert c in w.locs[p.currentLocation].options;
    }
  }

  /**
   * Naming a new game: the name becomes the player's game name and the
   * game is saved. A name already in the file is not refused: the first
   * record with that name is overwritten in place.
   */
  function NewGame(p: Player, file: StoreFile, name: string, now: Timestamp): (s: Saved)
    requires name != ""
    ensures s.player == p.(gameName := Some(name), lastUpdated := Some(now))
    ensures s.file.Json?
    ensures s.file.records == Upsert(RecordsOf(file), AsRecord(s.player))
    ensures (exists j :: 0 <= j < |RecordsOf(file)| && RecordsOf(file)[j].gameName == name) ==>
      |s.file.records| == |RecordsOf(file)|
    ensures (forall j :: 0 <= j < |RecordsOf(file)| ==> RecordsOf(file)[j].gameName != name) ==>
      s.file.records == RecordsOf(file) + [AsRecord(s.player)]
    ensures
      var i := FirstIndexOf(s.file.records, name);
      i.Some? && s.file.records[i.value] == AsRecord(s.player)
    ensures forall j :: 0 <= j < |RecordsOf(file)| && RecordsOf(file)[j].gameName != name ==>
      s.file.records[j] == RecordsOf(file)[j]
  {
    SaveGame(p.(gameName := Some(name)), file, now, None)
  }

  /** The menu answer `choice` indexes a list of `count` saves (plus a trailing "Go back" when `back`). */
  predicate MenuFits(count: nat, choice: nat, back: bool) {
    count > 0 ==> (if back then choice <= count else choice < count)
  }

  /** The outcome of loading: whether a save was loaded, the player and the file. */
  datatype Loaded = Loaded(loaded: bool, player: Player, file: StoreFile)

  /**
   * Loading: with no saves nothing is loaded; otherwise the chosen
   * record's location, inventory, name and save time are copied onto the
   * player. The file is only ever healed by the read, never rewritten.
   */
  function LoadGame(p: Player, file: StoreFile, choice: nat): (l: Loaded)
    requires MenuFits(|RecordsOf(file)|, choice, false)
    ensures l.file == Json(RecordsOf(file))
    ensures !l.loaded <==> RecordsOf(file) == []
    ensures !l.loaded ==> l.player == p
    ensures l.loaded ==>
      var r := RecordsOf(file)[choice];
      && l.player.currentLocation == r.currentLocation
      && l.player.inventory == r.inventory
      && l.player.gameName == Some(r.gameName)
      && l.player.lastUpdated == Some(r.lastUpdated)
  {
    var contents := GetSaveGameContents(file);
    if |contents.records| > 0 then
      Loaded(true, Restore(contents.records[choice]), contents.file)
    else
      Loaded(false, p, contents.file)
  }

  /**
   * Deleting: the saves are listed followed by "Go back". Choosing
   * "Go back", or having no saves, writes nothing beyond the read; any
   * other choice removes that record and writes the rest as an override.
   */
  function DeleteGame(p: Player, file: StoreFile, choice: nat): (f: StoreFile)
    requires MenuFits(|RecordsOf(file)|, choice, true)
    ensures f.Json?
    ensures choice >= |RecordsOf(file)| ==> f == Json(RecordsOf(file))
    ensures file.Json? && choice >= |file.records| ==> f == file
    ensures choice < |RecordsOf(file)| ==>
      && |f.records| == |RecordsOf(file)| - 1
      && (forall j :: 0 <= j < choice ==> f.records[j] == RecordsOf(file)[j])
      && (forall j :: choice <= j < |f.records| ==> f.records[j] == RecordsOf(file)[j + 1])
  {
    var contents := GetSaveGameContents(file);
    if |contents.records| > 0 then
      if choice == |contents.records| then
        contents.file
      else
        // An override save does not read the clock, so any reading will do.
        SaveGame(p, contents.file, 0.0, Some(RemoveAt(contents.records, choice))).file
    else
      contents.file
  }

  /**
   * A new game is resumable: after naming it, choosing its record in the
   * load menu puts the player back at the first location, empty-handed,
   * under that name.
   */
  lemma NewGameThenLoad(w: World, file: StoreFile, name: string, now: Timestamp, q: Player)
    requires |w.order| > 0
    requires name != ""
    ensures
      var s := NewGame(NewPlayer(w), file, name, now);
      var i := FirstIndexOf(s.file.records, name);
      && i.Some?
      && var l := LoadGame(q, s.file, i.value);
      && l.loaded
      && l.player.currentLocation == w.Start()
      && l.player.inventory == []
      && l.player.gameName == Some(name)
      && l.player.lastUpdated == Some(now)
  {
    var p := NewPlayer(w);
    var s := NewGame(p, file, name, now);
    assert SaveGame(p.(gameName := Some(name)), file, now, None) == s;
    var i := FirstIndexOf(s.file.records, name);
    assert Restore(s.file.records[i.value]) == s.player;
  }

  /** Once names are unique, deleting a save removes its name from the file. */
  lemma DeleteThenNameGone(p: Player, file: StoreFile, k: nat)
    requires k < |RecordsOf(file)|
    requires UniqueNames(RecordsOf(file))
    ensures FirstIndexOf(RecordsOf(DeleteGame(p, file, k)), RecordsOf(file)[k].gameName) == None
  {
    RemoveAtForgetsName(RecordsOf(file), k);
  }

  /** Saving, and so naming a game, never puts two saves under one name into a file that had none. */
  lemma SaveKeepsNamesUnique(p: Player, file: StoreFile, name: string, now: Timestamp)
    requires UniqueNames(RecordsOf(file))
    ensures p.gameName.Some? ==> UniqueNames(RecordsOf(SaveGame(p, file, now, None).file))
    ensures name != "" ==> UniqueNames(RecordsOf(NewGame(p, file, name, now).file))
  {
    var records := RecordsOf(file);
    if p.gameName.Some? {
      UpsertKeepsNamesUnique(records, AsRecord(p.(lastUpdated := Some(now))));
    }
    if name != "" {
      var named := p.(gameName := Some(name));
      UpsertKeepsNamesUnique(records, AsRecord(named.(lastUpdated := Some(now))));
    }
  }

  /** A step of play never puts two saves under one name into a file that had none. */
  lemma PlayKeepsNamesUnique(w: World, p: Player, file: StoreFile, choice: nat, now: Timestamp)
    requires UniqueNames(RecordsOf(file))
    requires CanMove(w, p.currentLocation) ==> p.gameName.Some?
    requires ChoiceFits(w, p.currentLocation, choice)
    ensures UniqueNames(RecordsOf(PlayGame(w, p, file, choice, now).file))
  {
    if CanMove(w, p.currentLocation) {
      var moved := p.(currentLocation := w.locs[p.currentLocation].options[choice].next);
      UpsertKeepsNamesUnique(RecordsOf(file), AsRecord(moved.(lastUpdated := Some(now))));
    }
  }

  /** Loading and deleting never put two saves under one name into a file that had none. */
  lemma LoadDeleteKeepNamesUnique(p: Player, file: StoreFile, choice: nat)
    requires UniqueNames(RecordsOf(file))
    ensures MenuFits(|RecordsOf(file)|, choice, false) ==>
      UniqueNames(RecordsOf(LoadGame(p, file, choice).file))
    ensures MenuFits(|RecordsOf(file)|, choice, true) ==>
      UniqueNames(RecordsOf(DeleteGame(p, file, choice)))
  {
    if MenuFits(|RecordsOf(file)|, choice, true) && choice < |RecordsOf(file)| {
      RemoveAtForgetsName(RecordsOf(file), choice);
    }
  }
}

=== FILE: game_world.dfy ===
/**
 * The story map the game ships with, as data (labels and targets only),
 * and what the two structural checks say about it: no option dangles, and
 * exactly three endings can never be reached from the entrance.
 */
module GameWorld {
  import opened Wrappers
  import opened StoryMap
  import Validators
  import Game

  const CaveEntrance := "Cave Entrance"
  const Village := "Village"
  const DarkTunnel := "Dark Tunnel"
  const NarrowPath := "Narrow Path"
  const FallToDoom := "Bad Ending - Fall to Doom"
  const PitLedgeEscape := "Pit Ledge Escape"
  const WidePath := "Wide Path"
  const ChestOpened := "Treasure Room - Chest Opened"
  const TragicEnding := "Creature Attack - Tragic Ending"
  const TragicEnding2 := "Creature Attack - Tragic Ending 2"
  const Victory := "Victory - Success Ending"
  const NeutralEnding1 := "Leave Cave - Neutral Ending 1"
  const NeutralEnding2 := "Leave Cave - Neutral Ending 2"
  const NeutralEnding3 := "Leave Cave - Neutral Ending 3"

  const Ending := Location([])

  /** The shipped story map, keys in the order they are written. */
  function Shipped(): (w: World)
    ensures |w.order| == 14 && w.Start() == CaveEntrance
  {
    World(
      [CaveEntrance, Village, DarkTunnel, NarrowPath, FallToDoom, PitLedgeEscape, WidePath,
       ChestOpened, TragicEnding, TragicEnding2, Victory, NeutralEnding1, NeutralEnding2,
       NeutralEnding3],
      map[
        CaveEntrance := Location([
          Choice("Enter the Cave", DarkTunnel),
          Choice("Turn Back", Village)]),
        Village := Ending,
        DarkTunnel := Location([
          Choice("Take the Narrow Path", NarrowPath),
          Choice("Take the Wide Path", WidePath)]),
        NarrowPath := Location([
          Choice("Try to Climb Out", FallToDoom),
          Choice("Stay Still", PitLedgeEscape)]),
        FallToDoom := Ending,
        PitLedgeEscape := Location([
          Choice("Take the Wide Path", WidePath)]),
        WidePath := Location([
          Choice("Open the Chest", ChestOpened),
          Choice("Leave the Chest", NeutralEnding1)]),
        ChestOpened := Location([
          Choice("Use the Relic's Light to Blind the Creature", Victory),
          Choice("Use the Relic to Charge Your Sword with Power", TragicEnding),
          Choice("Throw the Relic as a Distraction and Attack", TragicEnding)]),
        TragicEnding := Ending,
        TragicEnding2 := Ending,
        Victory := Ending,
        NeutralEnding1 := Ending,
        NeutralEnding2 := Ending,
        NeutralEnding3 := Ending])
  }

  /** The locations a player can actually get to. */
  const Reached: set<string> :=
    {CaveEntrance, Village, DarkTunnel, NarrowPath, FallToDoom, PitLedgeEscape, WidePath,
     ChestOpened, TragicEnding, Victory, NeutralEnding1}

  /** The endings no choice leads to. */
  const Orphaned: set<string> := {TragicEnding2, NeutralEnding2, NeutralEnding3}

  /** Each key of the shipped map is written once, and the key list is exactly the key set. */
  lemma ShippedKeys()
    ensures Shipped().locs.Keys == Reached + Orphaned
    ensures forall k :: k in Shipped().locs <==> k in Shipped().order
  {
  }

  lemma ShippedDistinct()
    ensures forall i, j :: 0 <= i < j < |Shipped().order| ==> Shipped().order[i] != Shipped().order[j]
  {
  }

  lemma ShippedDisjoint()
    ensures Reached !! Orphaned
  {
  }

  lemma ShippedValid()
    ensures Shipped().Valid()
    ensures Shipped().locs.Keys == Reached + Orphaned
    ensures Reached !! Orphaned
  {
    ShippedKeys();
    ShippedDistinct();
    ShippedDisjoint();
  }

  /** The shipped map passes the dangling-target check. */
  lemma ShippedNoDangling()
    ensures NoDangling(Shipped())
  {
  }

  /** No option of a reached location leads outside the reached set. */
  lemma ReachedClosed()
    ensures Closed(Shipped(), Reached)
  {
    var w := Shipped();
    ShippedKeys();
    forall v | v in Reached
      ensures w.Successors(v) <= Reached
    {
      var options := w.locs[v].options;
      forall t | t in w.Successors(v)
        ensures t in Reached
      {
        var c :| c in options && c.next == t;
        var i :| 0 <= i < |options| && options[i] == c;
        OptionTargetReached(v, i);
      }
    }
  }

  /** Every option of a reached location leads to a reached location. */
  lemma OptionTargetReached(v: string, i: nat)
    requires v in Reached
    requires v in Shipped().locs && i < |Shipped().locs[v].options|
    ensures Shipped().locs[v].options[i].next in Reached
  {
    if v == CaveEntrance {
    } else if v == DarkTunnel {
    } else if v == NarrowPath {
    } else if v == PitLedgeEscape {
    } else if v == WidePath {
    } else if v == ChestOpened {
    }
  }

  /** Following option `i` of a location reachable from the entrance reaches its target. */
  lemma Follow(x: string, i: nat)
    requires x in Shipped().locs && i < |Shipped().locs[x].options|
    requires Reachable(Shipped(), CaveEntrance, x)
    ensures Reachable(Shipped(), CaveEntrance, Shipped().locs[x].options[i].next)
  {
    var w := Shipped();
    assert w.locs[x].options[i] in w.locs[x].options;
    ReachableStep(w, CaveEntrance, x, w.locs[x].options[i].next);
  }

  lemma ReachedNearEntrance()
    ensures Reachable(Shipped(), CaveEntrance, CaveEntrance)
    ensures Reachable(Shipped(), CaveEntrance, Village)
    ensures Reachable(Shipped(), CaveEntrance, DarkTunnel)
    ensures Reachable(Shipped(), CaveEntrance, NarrowPath)
    ensures Reachable(Shipped(), CaveEntrance, WidePath)
  {
    ReachableRefl(Shipped(), CaveEntrance);
    Follow(CaveEntrance, 0);
    Follow(CaveEntrance, 1);
    Follow(DarkTunnel, 0);
    Follow(DarkTunnel, 1);
  }

  lemma ReachedDeeper()
    ensures Reachable(Shipped(), CaveEntrance, FallToDoom)
    ensures Reachable(Shipped(), CaveEntrance, PitLedgeEscape)
    ensures Reachable(Shipped(), CaveEntrance, ChestOpened)
    ensures Reachable(Shipped(), CaveEntrance, NeutralEnding1)
  {
    ReachedNearEntrance();
    Follow(NarrowPath, 0);
    Follow(NarrowPath, 1);
    Follow(WidePath, 0);
    Follow(WidePath, 1);
  }

  lemma ReachedTreasure()
    ensures Reachable(Shipped(), CaveEntrance, Victory)
    ensures Reachable(Shipped(), CaveEntrance, TragicEnding)
  {
    ReachedDeeper();
    Follow(ChestOpened, 0);
    Follow(ChestOpened, 1);
  }

  /** Every reached location has a walk to it from the entrance. */
  lemma ReachedReachable()
    ensures forall k :: k in Reached ==> Reachable(Shipped(), CaveEntrance, k)
  {
    ReachedNearEntrance();
    ReachedDeeper();
    ReachedTreasure();
  }

  /**
   * On the shipped map the locations unreachable from the entrance are
   * exactly the three orphaned endings, so the reachability check fails.
   */
  lemma ShippedUnreachable()
    ensures Shipped().Start() == CaveEntrance
    ensures forall k :: k in Shipped().locs && !Reachable(Shipped(), CaveEntrance, k) <==> k in Orphaned
  {
    ShippedValid();
    ReachedReachable();
    ReachedClosed();
    forall k | k in Orphaned
      ensures !Reachable(Shipped(), CaveEntrance, k)
    {
      if Reachable(Shipped(), CaveEntrance, k) {
        ClosedContainsReachable(Shipped(), Reached, CaveEntrance, k);
      }
    }
  }

  /**
   * Both structural checks run on the shipped map: the dangling check
   * finds nothing, and the walk reports exactly the three orphaned
   * endings, whatever order the pending set yields its names in.
   */
  method CheckShipped() returns (bad: Option<(string, string)>, unused: set<string>)
    ensures bad == None
    ensures unused == Orphaned
  {
    ShippedValid();
    ShippedNoDangling();
    ShippedUnreachable();
    assert Validators.ReachableNextsKnown(Shipped(), Shipped().Start());
    bad := Validators.FindInvalidNext(Shipped());
    unused := Validators.UnusedLocations(Shipped());
  }

  /** A fresh player on the shipped map stands at the cave entrance. */
  lemma ShippedFreshPlayer()
    ensures Game.NewPlayer(Shipped()).currentLocation == CaveEntrance
    ensures Game.NewPlayer(Shipped()).inventory == []
  {
  }
}

=== FILE: inputs.dfy ===
/**
 * The per-attempt acceptance rules of the three console prompts, each a
 * pure function of one answer string, and the retry loop as "the first
 * accepted answer of a supplied sequence of answers".
 */
module Inputs {
  import opened Wrappers

  // ---------------------------------------------------------------------
  // Menu index prompt
  // ---------------------------------------------------------------------

  predicate IsDigit(c: char) {
    '0' <= c <= '9'
  }

  predicate AllDigits(s: string) {
    forall i :: 0 <= i < |s| ==> IsDigit(s[i])
  }

  /** What `str.isdigit` accepts, restricted to ASCII: a non-empty run of digits. */
  predicate IsDigitString(s: string) {
    |s| > 0 && AllDigits(s)
  }

  function DigitValue(c: char): (d: nat)
    requires IsDigit(c)
  {
    (c as int) - ('0' as int)
  }

  function Pow10(n: nat): (p: nat)
    ensures p >= 1
  {
    if n == 0 then 1 else 10 * Pow10(n - 1)
  }

  /** The decimal value `int()` gives a digit string (most significant digit first). */
  function Value(s: string): (v: nat)
    requires AllDigits(s)
    ensures v < Pow10(|s|)
    ensures |s| > 0 && s[0] != '0' ==> Pow10(|s| - 1) <= v
    decreases |s|
  {
    if |s| == 0 then 0 else Value(s[..|s| - 1]) * 10 + DigitValue(s[|s| - 1])
  }

  /**
   * One attempt at the numbered-menu prompt over `n` entries: the answer
   * must be all digits and its value must lie in 1..n; the result is the
   * zero-based index.
   */
  function ParseMenuIndex(s: string, n: nat): (r: Option<nat>)
    ensures r.Some? ==> r.value < n
    ensures r.Some? <==> IsDigitString(s) && 1 <= Value(s) <= n
    ensures r.Some? ==> r.value + 1 == Value(s)
  {
    if !IsDigitString(s) then None
    else
      var choice := Value(s);
      if choice < 1 || choice > n then None
      else Some(choice - 1)
  }

  /** A menu with no entries accepts nothing, so its prompt never returns. */
  lemma EmptyMenuAcceptsNothing(s: string)
    ensures ParseMenuIndex(s, 0) == None
  {
  }

  /** An answer with any non-digit character (a sign, a space, a letter) is rejected. */
  lemma NonDigitRejected(s: string, n: nat, i: nat)
    requires i < |s| && !IsDigit(s[i])
    ensures ParseMenuIndex(s, n) == None
  {
  }

  // Canonical decimal numerals, the independent reference for the parser.

  function DigitChar(d: nat): (c: char)
    requires d < 10
  {
    (('0' as int) + d) as char
  }

  /** The decimal numeral of `k`, without leading zeros. */
  function Decimal(k: nat): (s: string)
    decreases k
  {
    if k < 10 then [DigitChar(k)] else Decimal(k / 10) + [DigitChar(k % 10)]
  }

  function Zeros(m: nat): (z: string)
    ensures |z| == m
    ensures forall i :: 0 <= i < m ==> z[i] == '0'
  {
    seq(m, _ => '0')
  }

  /** Reading the numeral of `k` gives back `k`. */
  lemma {:induction false} ValueOfDecimal(k: nat)
    ensures IsDigitString(Decimal(k))
    ensures Value(Decimal(k)) == k
    decreases k
  {
    if k >= 10 {
      ValueOfDecimal(k / 10);
      var s := Decimal(k);
      assert s[..|s| - 1] == Decimal(k / 10);
    }
  }

  /** A numeral without a leading zero is the canonical numeral of its value. */
  lemma {:induction false} DecimalOfValue(t: string)
    requires IsDigitString(t) && t[0] != '0'
    ensures Value(t) > 0
    ensures Decimal(Value(t)) == t
    decreases |t|
  {
    if |t| > 1 {
      var init := t[..|t| - 1];
      assert init[0] == t[0];
      DecimalOfValue(init);
      var v := Value(t);
      var d := DigitValue(t[|t| - 1]);
      assert v == Value(init) * 10 + d;
      assert v / 10 == Value(init) && v % 10 == d;
      assert DigitChar(d) == t[|t| - 1];
      assert t == init + [t[|t| - 1]];
    }
  }

  /** Leading zeros do not change the value of a digit string. */
  lemma {:induction false} ValueIgnoresLeadingZeros(m: nat, s: string)
    requires AllDigits(s)
    ensures AllDigits(Zeros(m) + s)
    ensures Value(Zeros(m) + s) == Value(s)
    decreases |s| + m
  {
    var z := Zeros(m) + s;
    if |s| == 0 {
      if m > 0 {
        assert z[..|z| - 1] == Zeros(m - 1) + s;
        ValueIgnoresLeadingZeros(m - 1, s);
      }
    } else {
      assert z[..|z| - 1] == Zeros(m) + s[..|s| - 1];
      ValueIgnoresLeadingZeros(m, s[..|s| - 1]);
    }
  }

  /** Splits a digit string into its leading zeros and the rest. */
  lemma {:induction false} SplitLeadingZeros(s: string) returns (m: nat)
    ensures m <= |s|
    ensures s == Zeros(m) + s[m..]
    ensures m < |s| ==> s[m] != '0'
    decreases |s|
  {
    if |s| == 0 || s[0] != '0' {
      m := 0;
      assert s == Zeros(0) + s[0..];
    } else {
      var m' := SplitLeadingZeros(s[1..]);
      m := m' + 1;
      assert s[1..][m'..] == s[m..];
      assert s == [s[0]] + s[1..];
    }
  }

  /**
   * The menu prompt accepts an answer with result `r` exactly when the
   * answer is the numeral of `r + 1`, possibly preceded by zeros, and
   * `r` is below the number of entries: "1", "01" and "001" all choose
   * the first entry.
   */
  lemma MenuAnswerForm(s: string, n: nat, r: nat)
    ensures ParseMenuIndex(s, n) == Some(r) <==>
      r < n && exists m: nat :: s == Zeros(m) + Decimal(r + 1)
  {
    if ParseMenuIndex(s, n) == Some(r) {
      var m := SplitLeadingZeros(s);
      var t := s[m..];
      assert AllDigits(t);
      ValueIgnoresLeadingZeros(m, t);
      assert |t| > 0;
      DecimalOfValue(t);
      assert s == Zeros(m) + Decimal(r + 1);
    }
    if r < n && exists m: nat :: s == Zeros(m) + Decimal(r + 1) {
      var m: nat :| s == Zeros(m) + Decimal(r + 1);
      ValueOfDecimal(r + 1);
      ValueIgnoresLeadingZeros(m, Decimal(r + 1));
    }
  }

  /** Every menu entry can be chosen, by typing its one-based number. */
  lemma EveryEntrySelectable(n: nat, r: nat)
    requires r < n
    ensures ParseMenuIndex(Decimal(r + 1), n) == Some(r)
  {
    ValueOfDecimal(r + 1);
  }

  // ---------------------------------------------------------------------
  // Yes/no prompt
  // ---------------------------------------------------------------------

  /** `str.lower` on ASCII letters; other characters are left as they are. */
  function LowerChar(c: char): (l: char) {
    if 'A' <= c <= 'Z' then ((c as int) - ('A' as int) + ('a' as int)) as char else c
  }

  function Lower(s: string): (r: string)
    ensures |r| == |s|
    ensures forall i :: 0 <= i < |s| ==> r[i] == LowerChar(s[i])
    ensures forall i :: 0 <= i < |r| ==> !('A' <= r[i] <= 'Z')
    ensures forall i :: 0 <= i < |s| && !('A' <= s[i] <= 'Z') ==> r[i] == s[i]
  {
    seq(|s|, i requires 0 <= i < |s| => LowerChar(s[i]))
  }

  function UpperChar(c: char): (u: char)
    requires 'a' <= c <= 'z'
  {
    ((c as int) - ('a' as int) + ('A' as int)) as char
  }

  /** `s` spells the lower-case word `word` with any mix of letter cases. */
  ghost predicate SpelledAs(s: string, word: string)
    requires forall i :: 0 <= i < |word| ==> 'a' <= word[i] <= 'z'
  {
    |s| == |word| && forall i :: 0 <= i < |s| ==> s[i] == word[i] || s[i] == UpperChar(word[i])
  }

  lemma LowerCharIs(c: char, x: char)
    requires 'a' <= x <= 'z'
    ensures LowerChar(c) == x <==> c == x || c == UpperChar(x)
  {
  }

  lemma {:induction false} LowerIs(s: string, word: string)
    requires forall i :: 0 <= i < |word| ==> 'a' <= word[i] <= 'z'
    ensures Lower(s) == word <==> SpelledAs(s, word)
  {
    if SpelledAs(s, word) {
      forall i | 0 <= i < |s|
        ensures Lower(s)[i] == word[i]
      {
        LowerCharIs(s[i], word[i]);
      }
    }
    if Lower(s) == word {
      forall i | 0 <= i < |s|
        ensures s[i] == word[i] || s[i] == UpperChar(word[i])
      {
        LowerCharIs(s[i], word[i]);
      }
    }
  }

  /**
   * One attempt at the yes/no prompt: after lower-casing the answer must
   * be one of four words. So it accepts exactly the case variants of
   * "yes", "y", "no" and "n", reading the first two as true and the
   * others as false.
   */
  function ParseYesNo(s: string): (r: Option<bool>)
    ensures r == Some(true) <==> SpelledAs(s, "yes") || SpelledAs(s, "y")
    ensures r == Some(false) <==> SpelledAs(s, "no") || SpelledAs(s, "n")
    ensures r == None <==>
      !SpelledAs(s, "yes") && !SpelledAs(s, "y") && !SpelledAs(s, "no") && !SpelledAs(s, "n")
  {
    LowerIs(s, "yes");
    LowerIs(s, "y");
    LowerIs(s, "no");
    LowerIs(s, "n");
    var choice := Lower(s);
    if choice !in ["yes", "no", "y", "n"] then None
    else Some(choice in ["yes", "y"])
  }

  // ---------------------------------------------------------------------
  // Free-text prompt
  // ---------------------------------------------------------------------

  /** One attempt at the free-text prompt: any non-empty answer, returned unchanged. */
  function ParseText(s: string): (r: Option<string>)
    ensures r.None? <==> s == ""
    ensures r.Some? ==> r.value == s
  {
    if |s| == 0 then None else Some(s)
  }

  // ---------------------------------------------------------------------
  // The retry loop
  // ---------------------------------------------------------------------

  /**
   * Re-prompts until an answer is accepted: returns the first accepted
   * answer's result and its position, or `None` with `at == |answers|`
   * when every supplied answer was rejected (where the source's next
   * `input()` call would raise `EOFError` on exhausted input).
   */
  method AskUntilAccepted<T>(answers: seq<string>, parse: string -> Option<T>)
    returns (r: Option<T>, at: nat)
    ensures at <= |answers|
    ensures forall j :: 0 <= j < at ==> parse(answers[j]).None?
    ensures r.Some? ==> at < |answers| && parse(answers[at]) == r
    ensures r.None? ==> at == |answers|
  {
    at := 0;
    while at < |answers|
      invariant at <= |answers|
      invariant forall j :: 0 <= j < at ==> parse(answers[j]).None?
    {
      var attempt := parse(answers[at]);
      if attempt.Some? {
        return attempt, at;
      }
      at := at + 1;
    }
    r := None;
  }

  /** The numbered-menu prompt over `n` entries, answered by `answers` in turn. */
  method AskMenuIndex(answers: seq<string>, n: nat) returns (r: Option<nat>, at: nat)
    ensures at <= |answers|
    ensures forall j :: 0 <= j < at ==> ParseMenuIndex(answers[j], n).None?
    ensures r.Some? ==> r.value < n && at < |answers| && ParseMenuIndex(answers[at], n) == r
    ensures r.None? ==> forall j :: 0 <= j < |answers| ==> ParseMenuIndex(answers[j], n).None?
    ensures n == 0 ==> r.None?
  {
    r, at := AskUntilAccepted(answers, s => ParseMenuIndex(s, n));
  }

  /** The yes/no prompt, answered by `answers` in turn. */
  method AskYesNo(answers: seq<string>) returns (r: Option<bool>, at: nat)
    ensures at <= |answers|
    ensures r.Some? ==> at < |answers| && ParseYesNo(answers[at]) == r
    ensures r == Some(true) ==> SpelledAs(answers[at], "yes") || SpelledAs(answers[at], "y")
    ensures r == Some(false) ==> SpelledAs(answers[at], "no") || SpelledAs(answers[at], "n")
    ensures forall j :: 0 <= j < at ==> ParseYesNo(answers[j]).None?
    ensures r.None? <==> forall j :: 0 <= j < |answers| ==> ParseYesNo(answers[j]).None?
  {
    r, at := AskUntilAccepted(answers, ParseYesNo);
  }

  /** The free-text prompt, answered by `answers` in turn: the first non-empty answer. */
  method AskText(answers: seq<string>) returns (r: Option<string>, at: nat)
    ensures at <= |answers|
    ensures r.Some? ==> at < |answers| && r.value == answers[at] && r.value != ""
    ensures forall j :: 0 <= j < at ==> answers[j] == ""
    ensures r.None? <==> forall j :: 0 <= j < |answers| ==> answers[j] == ""
  {
    r, at := AskUntilAccepted(answers, ParseText);
  }
}

=== FILE: save_store.dfy ===
/**
 * The save file as a value: an ordered list of player records, or a file
 * that is missing or whose text is not valid JSON. Reading heals the
 * latter two to the empty list; saving is an upsert keyed by game name;
 * deleting removes one record by position.
 */
module SaveStore {
  import opened Wrappers

  /** A clock reading (seconds since the epoch); only ever stored and copied. */
  type Timestamp = real

  /** One saved game: the four attributes a player object holds after naming its game. */
  datatype Record = Record(
    currentLocation: string,
    inventory: seq<string>,
    gameName: string,
    lastUpdated: Timestamp)

  /**
   * The state of the save file on disk: missing, holding text that is not
   * valid JSON, or holding a JSON list of records.
   */
  datatype StoreFile = Absent | Unparsable | Json(records: seq<Record>)

  /** What a read returns, and the file as it is afterwards. */
  datatype Contents = Contents(records: seq<Record>, file: StoreFile)

  /**
   * Reads the save file. A missing file, or one whose text is not valid
   * JSON, reads as the empty list and is rewritten to hold the empty list.
   */
  function GetSaveGameContents(file: StoreFile): (c: Contents)
    ensures c.file == Json(c.records)
    ensures file.Json? ==> c.file == file
    ensures !file.Json? ==> c.records == []
  {
    match file
    case Json(records) => Contents(records, file)
    case _ => Contents([], Json([]))
  }

  /** Reading twice is reading once: the first read leaves nothing to heal. */
  lemma ReadIsStable(file: StoreFile)
    ensures GetSaveGameContents(GetSaveGameContents(file).file) == GetSaveGameContents(file)
  {
  }

  /** Writing back what was read changes nothing that a later read can see. */
  lemma WriteBackRead(file: StoreFile)
    ensures GetSaveGameContents(Json(GetSaveGameContents(file).records)) == GetSaveGameContents(file)
  {
  }

  /** No two records share a game name. */
  ghost predicate UniqueNames(store: seq<Record>) {
    forall i, j :: 0 <= i < j < |store| ==> store[i].gameName != store[j].gameName
  }

  /** Position of the first record named `name`, as the save loop's scan with `break` finds it. */
  function FirstIndexOf(store: seq<Record>, name: string): (r: Option<nat>)
    ensures r.Some? ==> r.value < |store| && store[r.value].gameName == name
    ensures r.Some? ==> forall j :: 0 <= j < r.value ==> store[j].gameName != name
    ensures r.None? ==> forall j :: 0 <= j < |store| ==> store[j].gameName != name
    decreases |store|
  {
    if |store| == 0 then None
    else if store[0].gameName == name then Some(0)
    else match FirstIndexOf(store[1..], name)
      case None => None
      case Some(i) => Some(i + 1)
  }

  /**
   * Saving without an override list: the first record with the same game
   * name is replaced in place; if there is none the record is appended.
   */
  function Upsert(store: seq<Record>, rec: Record): (r: seq<Record>)
    ensures |r| == |store| || |r| == |store| + 1
    ensures |r| == |store| <==> exists j :: 0 <= j < |store| && store[j].gameName == rec.gameName
    ensures |r| == |store| + 1 ==> r == store + [rec]
    ensures |r| == |store| ==> exists i ::
      && 0 <= i < |store|
      && store[i].gameName == rec.gameName
      && (forall j :: 0 <= j < i ==> store[j].gameName != rec.gameName)
      && r[i] == rec
      && (forall j :: 0 <= j < |store| && j != i ==> r[j] == store[j])
  {
    match FirstIndexOf(store, rec.gameName)
    case Some(i) => store[i := rec]
    case None => store + [rec]
  }

  /** After an upsert the saved record is the first one under its name. */
  lemma UpsertThenFind(store: seq<Record>, rec: Record)
    ensures FirstIndexOf(Upsert(store, rec), rec.gameName).Some?
    ensures Upsert(store, rec)[FirstIndexOf(Upsert(store, rec), rec.gameName).value] == rec
  {
    var r := Upsert(store, rec);
    match FirstIndexOf(store, rec.gameName)
    case Some(i) =>
      assert r == store[i := rec];
      var k := FirstIndexOf(r, rec.gameName);
      assert k.Some? && k.value <= i;
    case None =>
      assert r == store + [rec];
      var k := FirstIndexOf(r, rec.gameName);
      assert r[|store|].gameName == rec.gameName;
  }

  /** Saving the same record twice is saving it once. */
  lemma UpsertIdempotent(store: seq<Record>, rec: Record)
    ensures Upsert(Upsert(store, rec), rec) == Upsert(store, rec)
  {
    var r := Upsert(store, rec);
    UpsertThenFind(store, rec);
    var k := FirstIndexOf(r, rec.gameName).value;
    assert r[k := rec] == r;
  }

  /** An upsert never introduces a second record under one name. */
  lemma UpsertKeepsNamesUnique(store: seq<Record>, rec: Record)
    requires UniqueNames(store)
    ensures UniqueNames(Upsert(store, rec))
  {
    var r := Upsert(store, rec);
    match FirstIndexOf(store, rec.gameName)
    case Some(i) =>
      assert r == store[i := rec];
      forall a, b | 0 <= a < b < |r|
        ensures r[a].gameName != r[b].gameName
      {
        if a != i && b != i {
          assert r[a] == store[a] && r[b] == store[b];
        } else if a == i {
          assert r[b] == store[b];
        } else {
          assert r[a] == store[a];
        }
      }
    case None =>
      assert r == store + [rec];
      forall a, b | 0 <= a < b < |r|
        ensures r[a].gameName != r[b].gameName
      {
        if b < |store| {
          assert r[a] == store[a] && r[b] == store[b];
        } else {
          assert r[a] == store[a];
        }
      }
  }

  /** `list.pop(k)`: record `k` is removed and the others keep their order. */
  function RemoveAt(store: seq<Record>, k: nat): (r: seq<Record>)
    requires k < |store|
    ensures |r| == |store| - 1
    ensures forall j :: 0 <= j < k ==> r[j] == store[j]
    ensures forall j :: k <= j < |r| ==> r[j] == store[j + 1]
    ensures multiset(r) + multiset{store[k]} == multiset(store)
  {
    assert store == store[..k] + [store[k]] + store[k + 1..];
    store[..k] + store[k + 1..]
  }

  /** With unique names, removing a record removes its name from the store. */
  lemma RemoveAtForgetsName(store: seq<Record>, k: nat)
    requires k < |store|
    requires UniqueNames(store)
    ensures FirstIndexOf(RemoveAt(store, k), store[k].gameName) == None
    ensures UniqueNames(RemoveAt(store, k))
  {
    var r := RemoveAt(store, k);
    forall a, b | 0 <= a < b < |r|
      ensures r[a].gameName != r[b].gameName
    {
      var a' := if a < k then a else a + 1;
      var b' := if b < k then b else b + 1;
      assert r[a] == store[a'] && r[b] == store[b'];
    }
  }
}

=== FILE: story_map.dfy ===
/**
 * The story map: a finite map from location name to the ordered list of
 * choices offered there, together with the insertion order of its keys
 * (the order a Python dict iterates in). Reachability is defined here by
 * paths, independently of any traversal algorithm.
 */
module StoryMap {

  /** One entry of a location's `options` list: its label and the location it leads to. */
  datatype Choice = Choice(name: string, next: string)

  /** A location; an empty `options` list marks an ending. */
  datatype Location = Location(options: seq<Choice>)
  {
    predicate IsTerminal() {
      |options| == 0
    }

    /** The set of `next` targets named by the options. */
    function Nexts(): (r: set<string>)
      ensures forall c :: c in options ==> c.next in r
      ensures forall t :: t in r ==> exists c :: c in options && c.next == t
    {
      set c | c in options :: c.next
    }
  }

  /** A story map: `locs` holds the data, `order` the keys in insertion order. */
  datatype World = World(order: seq<string>, locs: map<string, Location>)
  {
    /** What every Python dict satisfies: each key listed once, and exactly the keys listed. */
    ghost predicate Valid() {
      && (forall i, j :: 0 <= i < j < |order| ==> order[i] != order[j])
      && (forall k :: k in locs <==> k in order)
    }

    /** The first key in insertion order; a dict with no keys has none. */
    function Start(): (k: string)
      requires |order| > 0
    {
      order[0]
    }

    /** Out-neighbours of `k`; a name that is not a key has none. */
    function Successors(k: string): (r: set<string>) {
      if k in locs then locs[k].Nexts() else {}
    }
  }

  /** Every `next` of every option of every location is a key of the map. */
  ghost predicate NoDangling(w: World) {
    forall k, c :: k in w.locs && c in w.locs[k].options ==> c.next in w.locs
  }

  /** `p` is a non-empty walk along options of the map. */
  ghost predicate IsPath(w: World, p: seq<string>) {
    && |p| > 0
    && forall i :: 0 <= i < |p| - 1 ==> p[i + 1] in w.Successors(p[i])
  }

  ghost predicate PathBetween(w: World, p: seq<string>, s: string, t: string) {
    IsPath(w, p) && p[0] == s && p[|p| - 1] == t
  }

  /** `t` can be reached from `s` by following zero or more options. */
  ghost predicate Reachable(w: World, s: string, t: string) {
    exists p :: PathBetween(w, p, s, t)
  }

  /** Every location reaches itself by the empty walk. */
  lemma ReachableRefl(w: World, s: string)
    ensures Reachable(w, s, s)
  {
    assert PathBetween(w, [s], s, s);
  }

  /** Extending a walk by one option keeps the target reachable. */
  lemma ReachableStep(w: World, s: string, x: string, y: string)
    requires Reachable(w, s, x)
    requires y in w.Successors(x)
    ensures Reachable(w, s, y)
  {
    var p :| PathBetween(w, p, s, x);
    var q := p + [y];
    forall i | 0 <= i < |q| - 1
      ensures q[i + 1] in w.Successors(q[i])
    {
      if i < |p| - 1 {
        assert q[i] == p[i] && q[i + 1] == p[i + 1];
      } else {
        assert q[i] == x && q[i + 1] == y;
      }
    }
    assert PathBetween(w, q, s, y);
  }

  /** A set closed under successors. */
  ghost predicate Closed(w: World, S: set<string>) {
    forall v :: v in S ==> w.Successors(v) <= S
  }

  /** A walk that starts inside a closed set never leaves it. */
  lemma {:induction false} PathStaysInClosed(w: World, p: seq<string>, S: set<string>)
    requires IsPath(w, p)
    requires p[0] in S
    requires Closed(w, S)
    ensures p[|p| - 1] in S
    decreases |p|
  {
    if |p| > 1 {
      var q := p[..|p| - 1];
      assert IsPath(w, q) by {
        forall i | 0 <= i < |q| - 1
          ensures q[i + 1] in w.Successors(q[i])
        {
          assert q[i] == p[i] && q[i + 1] == p[i + 1];
        }
      }
      PathStaysInClosed(w, q, S);
      assert p[|p| - 1] in w.Successors(p[|p| - 2]);
    }
  }

  /** A closed set containing `s` contains everything reachable from `s`. */
  lemma ClosedContainsReachable(w: World, S: set<string>, s: string, t: string)
    requires s in S
    requires Closed(w, S)
    requires Reachable(w, s, t)
    ensures t in S
  {
    var p :| PathBetween(w, p, s, t);
    PathStaysInClosed(w, p, S);
  }
}

=== FILE: validators.dfy ===
/**
 * The two structural checks the repository's test suite runs over a story
 * map: no option names a location that does not exist, and every location
 * is reachable from the first one.
 */
module Validators {
  import opened Wrappers
  import opened StoryMap

  /** Every option of location `k` leads to a key of the map. */
  ghost predicate NextsKnown(w: World, k: string)
    requires k in w.locs
  {
    forall c :: c in w.locs[k].options ==> c.next in w.locs
  }

  /** Every option of every location reachable from `s` leads to a key. */
  ghost predicate ReachableNextsKnown(w: World, s: string) {
    forall k, c :: k in w.locs && Reachable(w, s, k) && c in w.locs[k].options ==> c.next in w.locs
  }

  /**
   * Option `b` of the `a`-th location in insertion order is the first
   * dangling option the check meets: its target is not a key, while every
   * option of earlier locations, and every earlier option of this
   * location, leads to a key.
   */
  ghost predicate FirstInvalidAt(w: World, a: int, b: int) {
    && 0 <= a < |w.order|
    && w.order[a] in w.locs
    && 0 <= b < |w.locs[w.order[a]].options|
    && w.locs[w.order[a]].options[b].next !in w.locs
    && (forall a' :: 0 <= a' < a ==> w.order[a'] in w.locs && NextsKnown(w, w.order[a']))
    && (forall b' :: 0 <= b' < b ==> w.locs[w.order[a]].options[b'].next in w.locs)
  }

  /**
   * The dangling-target check: visits the locations in insertion order and
   * their options in list order, and stops at the first option whose `next`
   * is not a key, reporting the location and the missing name.
   */
  method FindInvalidNext(w: World) returns (bad: Option<(string, string)>)
    requires w.Valid()
    ensures bad.None? <==> NoDangling(w)
    ensures bad.Some? ==>
      && bad.value.0 in w.locs
      && bad.value.1 !in w.locs
      && (exists c :: c in w.locs[bad.value.0].options && c.next == bad.value.1)
    ensures bad.Some? ==> exists a, b ::
      && FirstInvalidAt(w, a, b)
      && bad.value == (w.order[a], w.locs[w.order[a]].options[b].next)
  {
    var i := 0;
    while i < |w.order|
      invariant 0 <= i <= |w.order|
      invariant forall a :: 0 <= a < i ==> w.order[a] in w.locs && NextsKnown(w, w.order[a])
    {
      var location := w.order[i];
      var options := w.locs[location].options;
      var j := 0;
      while j < |options|
        invariant 0 <= j <= |options|
        invariant forall b :: 0 <= b < j ==> options[b].next in w.locs
      {
        if options[j].next !in w.locs {
          assert FirstInvalidAt(w, i, j);
          assert options[j] in options;
          return Some((location, options[j].next));
        }
        j := j + 1;
      }
      i := i + 1;
    }
    forall k, c | k in w.locs && c in w.locs[k].options
      ensures c.next in w.locs
    {
      var a :| 0 <= a < |w.order| && w.order[a] == k;
    }
    bad := None;
  }

  /**
   * The reachability walk: starts from the first key, repeatedly takes an
   * arbitrary pending name (as `set.pop` does), skips it if already
   * visited, and otherwise marks it visited and queues all its targets.
   * Returns the keys never visited. Only names reachable from the first
   * key are ever popped, so the lookup of a popped name succeeds exactly
   * when no reachable location has a dangling option: that is the
   * precondition (options of unreachable locations may dangle). An empty
   * map has no first key.
   */
  method UnusedLocations(w: World) returns (unused: set<string>)
    requires w.Valid()
    requires |w.order| > 0
    requires ReachableNextsKnown(w, w.Start())
    ensures forall k :: k in unused <==> k in w.locs && !Reachable(w, w.Start(), k)
    ensures unused == {} <==> forall k :: k in w.locs ==> Reachable(w, w.Start(), k)
  {
    var start := w.order[0];
    var locations := w.locs.Keys;
    var visited: set<string> := {};
    var toVisit := {start};
    ReachableRefl(w, start);
    while toVisit != {}
      invariant visited <= w.locs.Keys && toVisit <= w.locs.Keys
      invariant locations == w.locs.Keys - visited
      invariant start in visited + toVisit
      invariant forall v :: v in visited + toVisit ==> Reachable(w, start, v)
      invariant forall v :: v in visited ==> w.Successors(v) <= visited + toVisit
      decreases locations, toVisit
    {
      var current :| current in toVisit;
      toVisit := toVisit - {current};
      if current in visited {
        continue;
      }
      visited := visited + {current};
      locations := locations - {current};
      var targets := w.locs[current].Nexts();
      forall t | t in targets
        ensures Reachable(w, start, t) && t in w.locs
      {
        ReachableStep(w, start, current, t);
        var c :| c in w.locs[current].options && c.next == t;
      }
      toVisit := toVisit + targets;
    }
    forall k | Reachable(w, start, k)
      ensures k in visited
    {
      ClosedContainsReachable(w, visited, start, k);
    }
    unused := locations;
  }
}

=== FILE: wrappers.dfy ===
/** The optional-value datatype used throughout the model for "may be absent" results. */
module Wrappers {

  /** `None` marks a rejected input, a missing key or an unset attribute. */
  datatype Option<+T> = None | Some(value: T)
}
